=== FILE: README.md ===
# Semantic analysis of a microfluidic device description

This project models the semantic analyzer (`UFProcessor`) of a compiler for a
declarative microfluidic device language. The analyzer receives one
declaration event at a time, in source order:

- a header;
- entering or leaving a flow or control layer block;
- declarations of ports, nodes, cell traps, mixers and channels.

For each event it updates:

- a symbol table, the single namespace of the device;
- a device graph whose vertices are `(identifier, port)` pairs and whose edges are channels;
- a sticky validity flag;
- the current-layer context.

Semantic errors are reported and analysis continues. A malformed parse-tree
node aborts the analysis.

The model is functional. `Processor.Step(state, event, channelPorts)` maps a
state to an `Outcome`: `Running(state)`, or `Aborted(state)` for a malformed
node. `Processor.Run` folds `Step` over an event sequence and stops at the
first abort.

Modules:

- `Components` (components.dfy): the six component kinds, layers and the `HasPort` capability query.
- `SymbolTable` (symbol_table.dfy): `Put`, where first writer wins.
- `DeviceGraph` (device_graph.dfy): the vertex set, the edge list and the two vertex-registration loops.
- `Params` (params.dfy): optional named parameters of cell traps and mixers. A missing one is 0 and the last occurrence wins.
- `Processor` (processor.dfy): the state, the events, one handler per listener method, `Step` and `Run`.
- `Runs` (runs.dfy): properties of whole runs. These cover sticky validity, aborts, layer scoping, and the absence of dangling references in a valid device.
- `Statements` (statements.dfy): properties of single declaration statements.
- `ChannelAsWritten` (channel_as_written.dfy): the channel endpoint check exactly as the code is written (see Findings).
- `Scenarios` (scenarios.dfy): small whole analyses, stated for any names.

The `SymbolTable`, `DeviceGraph` and component classes of the Java program are
not part of this model. They are modelled from how the analyzer uses them:

- The symbol table is a `map<string, Component>`. Its `put` fails and changes nothing when the key is present.
- The device graph is a `set` of vertices, so adding a vertex is idempotent, plus a `seq` of edges.
- A component's capability is inferred from the vertex-registration loops. Ports, nodes and square cell traps have ports 1 to 4. Long cell traps and mixers have ports 1 and 2.
- A channel's capability is not visible. It is the caller-supplied predicate `channelPorts`.

The code adds a channel's edge even when an endpoint fails its check
(UFProcessor.java:117 runs after the checks at 94-111 whatever they found).
The model does the same: see `Processor.ExitChannelStat`.

The code assigns the device name at every header event (UFProcessor.java:48),
so a later header overwrites an earlier one. The model does the same.

Vertices are registered even for a duplicate name (UFProcessor.java:82-84 and
213-216 run whether or not `put` succeeded). So the invariant that every vertex
belongs to a registered component with that port holds only for valid devices
(`Runs.ValidDeviceHasNoDanglingReferences`). A redeclaration breaks it
(`Statements.DuplicateOfOtherKindAddsForeignVertex`).

`Processor.Run` (the event fold with its fatal abort) and `Components.HasPort`
(the `hasPort` query) have no contract of their own. Their properties are
stated by the `Runs` lemmas and by `Components.HasPortIsVertexRange`.

## Model

All source paths are under `src/main/java/com/github/ilms49898723/fluigi/`, written out in full below.

| member | source | states |
|---|---|---|
| Components.HasPortIsVertexRange | src/main/java/com/github/ilms49898723/fluigi/mintparse/UFProcessor.java:160-184 | For every kind except a channel, a component has exactly the ports its declaration registers. That is 1 to 4 for ports, nodes and square cell traps, and 1 and 2 for long cell traps and mixers. |
| Components.VertexCount | src/main/java/com/github/ilms49898723/fluigi/mintparse/UFProcessor.java:82-84 | A declaration registers 4 or 2 vertices; only a channel registers none. |
| SymbolTable.Put | src/main/java/com/github/ilms49898723/fluigi/mintparse/UFProcessor.java:78-81 | `put` succeeds exactly when the name is absent. On failure the table is unchanged. Every other entry is kept. |
| SymbolTable.PutTwiceKeepsFirst | src/main/java/com/github/ilms49898723/fluigi/mintparse/UFProcessor.java:78-81 | A second `put` under the same name fails and the first entry stays (first writer wins). |
| DeviceGraph.AddVertex | src/main/java/com/github/ilms49898723/fluigi/mintparse/UFProcessor.java:83 | The vertex is present afterwards, nothing else is added, and adding a present vertex changes nothing. |
| DeviceGraph.AddVertexIdempotent | src/main/java/com/github/ilms49898723/fluigi/mintparse/UFProcessor.java:213-216 | Adding the same vertex twice gives the same graph as adding it once. |
| DeviceGraph.AddEdge | src/main/java/com/github/ilms49898723/fluigi/mintparse/UFProcessor.java:117 | Exactly one edge is appended at the end, with no check on its endpoints; vertices are unchanged. |
| DeviceGraph.AddPorts | src/main/java/com/github/ilms49898723/fluigi/mintparse/UFProcessor.java:82-84 | The registration loop adds exactly the vertices `(id, lo)` to `(id, hi)`. |
| DeviceGraph.MixerPortsAddsEachOnce | src/main/java/com/github/ilms49898723/fluigi/mintparse/UFProcessor.java:213-216 | The mixer loop adds each of `(id,1)` and `(id,2)` twice, yet leaves exactly the graph a single pass over ports 1 and 2 leaves. |
| Params.ScanAbsent | src/main/java/com/github/ilms49898723/fluigi/mintparse/UFProcessor.java:143-159 | The collection loop never changes a local whose parameter does not occur. |
| Params.ScanLast | src/main/java/com/github/ilms49898723/fluigi/mintparse/UFProcessor.java:194-207 | After the collection loop, a local holds the value of its parameter's last occurrence. |
| Params.AbsentIsZero | src/main/java/com/github/ilms49898723/fluigi/mintparse/UFProcessor.java:138-142 | A parameter that is not supplied is 0. |
| Params.LastOccurrenceWins | src/main/java/com/github/ilms49898723/fluigi/mintparse/UFProcessor.java:143-149 | A parameter supplied several times takes its last value. |
| Processor.Init | src/main/java/com/github/ilms49898723/fluigi/mintparse/UFProcessor.java:29-36 | A fresh analyzer is valid, has layer `Undefined` and no device name, and holds exactly the table and graph it is given. |
| Processor.Invalidate | src/main/java/com/github/ilms49898723/fluigi/mintparse/UFProcessor.java:225-227 | A report appends exactly one diagnostic and clears validity, touching nothing else. |
| Processor.Register | src/main/java/com/github/ilms49898723/fluigi/mintparse/UFProcessor.java:77-81 | A fresh name gets a component with the current layer and validity is untouched. A duplicate leaves the table unchanged, adds exactly one DuplicatedIdentifier diagnostic and clears validity. |
| Processor.DeclareAll | src/main/java/com/github/ilms49898723/fluigi/mintparse/UFProcessor.java:72-86 | Every listed name ends up in the table. Existing entries are kept and new ones carry the current layer. The vertices added are exactly those of every listed name, duplicates included. |
| Processor.DeclareAllReports | src/main/java/com/github/ilms49898723/fluigi/mintparse/UFProcessor.java:78-81 | A statement only appends DuplicatedIdentifier diagnostics for its own names. It clears validity exactly when it appends one. |
| Processor.DeclareAllDuplicates | src/main/java/com/github/ilms49898723/fluigi/mintparse/UFProcessor.java:121-134 | The number of duplicate diagnostics is the number of names that add no entry. Validity survives exactly when every name is fresh and distinct. |
| Processor.DeclareAllDupCounts | src/main/java/com/github/ilms49898723/fluigi/mintparse/UFProcessor.java:72-86 | Which names are reported: each name is reported once per occurrence, except the first occurrence of a name not yet declared, which adds its entry instead. |
| Processor.CheckEndpoint | src/main/java/com/github/ilms49898723/fluigi/mintparse/UFProcessor.java:94-106 | An absent identifier gives UndefinedIdentifier. A present one without the port gives UndefinedPort. A resolving endpoint changes nothing. |
| Processor.ExitHeader | src/main/java/com/github/ilms49898723/fluigi/mintparse/UFProcessor.java:46-49 | The header records the device name and changes nothing else. |
| Processor.ExitPortStat | src/main/java/com/github/ilms49898723/fluigi/mintparse/UFProcessor.java:71-86 | New entries are ports of the given radius. The vertices added are exactly ports 1 to 4 of each listed name. |
| Processor.ExitNodeStat | src/main/java/com/github/ilms49898723/fluigi/mintparse/UFProcessor.java:120-134 | New entries are nodes. The vertices added are exactly ports 1 to 4 of each listed name. |
| Processor.ExitChannelStat | src/main/java/com/github/ilms49898723/fluigi/mintparse/UFProcessor.java:88-118 | Both endpoints are always checked and each failure gives its own diagnostic, in order. The channel is registered under its own name. Exactly one edge is appended whatever the checks found. Validity survives iff both endpoints resolve and the name is fresh. A duplicate channel name gives a DuplicatedIdentifier for that name, reported last, after both endpoint checks. |
| Processor.CellTrapVariant | src/main/java/com/github/ilms49898723/fluigi/mintparse/UFProcessor.java:136-185 | The exact tag "SQUARE CELL TRAP" gives a square trap; any other tag gives a long trap. The dimensions are the collected parameter values. |
| Processor.MixerVariant | src/main/java/com/github/ilms49898723/fluigi/mintparse/UFProcessor.java:190-208 | A mixer statement declares a mixer whose bend count, bend spacing, bend length and channel width are the collected values of the matching parameters. |
| Processor.ExitCellTrapStat | src/main/java/com/github/ilms49898723/fluigi/mintparse/UFProcessor.java:160-184 | Every new entry has the statement's trap kind. A square trap adds ports 1 to 4 for each name, and any other tag adds ports 1 and 2. |
| Processor.ExitMixerStat | src/main/java/com/github/ilms49898723/fluigi/mintparse/UFProcessor.java:187-217 | The vertex set gains exactly `(name,1)` and `(name,2)`. A fresh name adds exactly one entry, a mixer with the collected parameters, and reports nothing and keeps validity. A duplicate keeps the table and is reported once. |
| Processor.Step | src/main/java/com/github/ilms49898723/fluigi/mintparse/UFProcessor.java:51-69 | A malformed node aborts and leaves the state as it was. Entering a block sets its layer and leaving any block resets it to `Undefined`. No other event changes the layer, and block events change nothing but the layer. A header sets the device name, and no other event changes it. |
| Runs.StepReports | src/main/java/com/github/ilms49898723/fluigi/mintparse/UFProcessor.java:225-231 | Every event only appends diagnostics, and validity is cleared exactly when one is appended. |
| Runs.StepGrows | src/main/java/com/github/ilms49898723/fluigi/mintparse/UFProcessor.java:77-84 | Every event keeps existing entries and only grows the graph. New entries carry their own name and the current layer. |
| Runs.AbortsIffErrorNode | src/main/java/com/github/ilms49898723/fluigi/mintparse/UFProcessor.java:219-223 | A run aborts if and only if it contains a malformed node. |
| Runs.AbortDiscardsRest | src/main/java/com/github/ilms49898723/fluigi/mintparse/UFProcessor.java:219-223 | The abort result is the state just before the first malformed node. Nothing after it is processed. |
| Runs.RunBookkeeping | src/main/java/com/github/ilms49898723/fluigi/mintparse/UFProcessor.java:225-231 | Over a whole run, diagnostics are only appended and the first declaration of every name wins. The final flag is true iff it started true and nothing was reported. |
| Runs.InvalidStaysInvalid | src/main/java/com/github/ilms49898723/fluigi/mintparse/UFProcessor.java:225-227 | Once invalid, the analyzer stays invalid for the rest of the run. |
| Runs.FreshRunValidIffSilent | src/main/java/com/github/ilms49898723/fluigi/mintparse/UFProcessor.java:229-231 | From a fresh analyzer, `isValid` holds exactly when no diagnostic was reported. |
| Runs.DeclarationsCarryLayer | src/main/java/com/github/ilms49898723/fluigi/mintparse/UFProcessor.java:120-125 | Without block events the layer is unchanged, and everything declared carries it. |
| Runs.BlockScoping | src/main/java/com/github/ilms49898723/fluigi/mintparse/UFProcessor.java:51-69 | What is declared inside a flow or control block gets that block's layer. After the block the layer is `Undefined`. |
| Runs.DeclareAllPreservesWellFormed | src/main/java/com/github/ilms49898723/fluigi/mintparse/UFProcessor.java:72-86 | A statement that leaves the device valid keeps every vertex and edge endpoint resolved. |
| Runs.ChannelPreservesWellFormed | src/main/java/com/github/ilms49898723/fluigi/mintparse/UFProcessor.java:94-117 | A channel that leaves the device valid joins two endpoints that resolve. |
| Runs.MixerPreservesWellFormed | src/main/java/com/github/ilms49898723/fluigi/mintparse/UFProcessor.java:208-216 | A mixer that leaves the device valid adds only vertices of its own two ports. |
| Runs.StepPreservesWellFormed | src/main/java/com/github/ilms49898723/fluigi/mintparse/UFProcessor.java:71-217 | No event breaks the valid-device invariant. |
| Runs.RunPreservesWellFormed | src/main/java/com/github/ilms49898723/fluigi/mintparse/UFProcessor.java:71-217 | No run breaks the valid-device invariant. |
| Runs.ValidDeviceHasNoDanglingReferences | src/main/java/com/github/ilms49898723/fluigi/mintparse/UFProcessor.java:94-117 | In a device that ends valid, every vertex and every channel endpoint names a declared component with that port. |
| Statements.RedeclaredPortKeepsFirst | src/main/java/com/github/ilms49898723/fluigi/mintparse/UFProcessor.java:72-86 | Redeclaring a name keeps its first entry, reports exactly one DuplicatedIdentifier and clears validity. It still registers vertices 1 to 4. |
| Statements.EveryNameOfStatementIsDeclared | src/main/java/com/github/ilms49898723/fluigi/mintparse/UFProcessor.java:121-133 | A duplicate does not stop the statement: every listed name is in the table with all four vertices. |
| Statements.SquareCellTrapDefaults | src/main/java/com/github/ilms49898723/fluigi/mintparse/UFProcessor.java:160-171 | A square trap without parameters has all dimensions 0 and four vertices per name. |
| Statements.OtherTagGivesLongCellTrap | src/main/java/com/github/ilms49898723/fluigi/mintparse/UFProcessor.java:172-184 | Any other tag gives long traps, and only ports 1 and 2 are added. |
| Statements.CellTrapLastValueWins | src/main/java/com/github/ilms49898723/fluigi/mintparse/UFProcessor.java:147-149 | A repeated chamber width takes its last value in every declared trap. |
| Statements.MixerWithOnlyBendLength | src/main/java/com/github/ilms49898723/fluigi/mintparse/UFProcessor.java:187-217 | A mixer given only its bend length has the other three parameters 0. It adds exactly ports 1 and 2. |
| Statements.EdgeOnMissingPortIsReported | src/main/java/com/github/ilms49898723/fluigi/mintparse/UFProcessor.java:101-117 | An edge with either endpoint on a port its component lacks is still recorded. This channel itself reports UndefinedPort for each such endpoint, and validity is cleared. |
| Statements.DuplicateOfOtherKindAddsForeignVertex | src/main/java/com/github/ilms49898723/fluigi/mintparse/UFProcessor.java:209-216 | Redeclaring a mixer as a port adds vertex 3 of a component that lacks port 3, and the device is invalid. |
| ChannelAsWritten.CheckEndpointAsWritten | src/main/java/com/github/ilms49898723/fluigi/mintparse/UFProcessor.java:94-106 | As written, an absent identifier is reported and then its missing entry is looked up. |
| ChannelAsWritten.ExitChannelStatAsWritten | src/main/java/com/github/ilms49898723/fluigi/mintparse/UFProcessor.java:88-118 | As written, the statement reaches the missing-entry lookup exactly when an endpoint is undeclared. |
| ChannelAsWritten.AsWrittenAgreesWhenDeclared | src/main/java/com/github/ilms49898723/fluigi/mintparse/UFProcessor.java:94-106 | With both endpoints declared, the code as written and the guarded check give the same result. |
| ChannelAsWritten.AsWrittenStopsOnUndeclaredEndpoint | src/main/java/com/github/ilms49898723/fluigi/mintparse/UFProcessor.java:97-105 | With an undeclared endpoint, the code as written never registers the channel or its edge. The guarded check reports the identifier and records both. |
| ChannelAsWritten.UndeclaredEndpointExample | src/main/java/com/github/ilms49898723/fluigi/mintparse/UFProcessor.java:97-101 | A concrete input: a channel from the undeclared `z` in an empty device. |
| Scenarios.DeclareTwoPorts | src/main/java/com/github/ilms49898723/fluigi/mintparse/UFProcessor.java:72-86 | Two distinct ports in a flow block are both entered with layer `Flow`, with no report. |
| Scenarios.ConnectTwoPorts | src/main/java/com/github/ilms49898723/fluigi/mintparse/UFProcessor.java:88-118 | A channel between declared ports keeps the device valid, adds the channel entry and records the one edge. |
| Scenarios.ConnectedPortsInFlowBlock | src/main/java/com/github/ilms49898723/fluigi/mintparse/UFProcessor.java:51-118 | The whole flow-block example ends valid, holds the three names and the one edge, and has the layer back at `Undefined`. |
| Scenarios.PortDeclaredTwice | src/main/java/com/github/ilms49898723/fluigi/mintparse/UFProcessor.java:72-86 | Declaring a port twice gives one DuplicatedIdentifier report and an invalid device. The first entry is kept. |

## Left out

- The symbol table, device graph and component classes are not part of this model. They appear only as the abstractions described above.
- The graph's per-layer views are left out: no such view is visible. So are layout, routing and simulation.
- A channel's port capability is not visible, so it is the parameter `channelPorts`.
- Parse-tree contexts, token text, and `Integer.parseInt` / `Double.parseDouble` are left out. Events carry parsed values and the port radius is an opaque integer. A malformed number is not modelled.
- Integer widths are left out. Parameters and port numbers are unbounded integers. The handlers convert numbers with `Integer.parseInt` (UFProcessor.java:102, 115-116, 145-157, 196-205). On a value outside the 32-bit range this throws an uncaught `NumberFormatException`, which ends the analysis inside the statement. The model accepts any integer and carries on.
- Diagnostic rendering is left out. A diagnostic is its kind and the identifier it concerns, with no file name or source position. An UndefinedPort diagnostic names the component, not the port token.
- `System.exit(1)` in `visitErrorNode` is the `Aborted` outcome, and the listener's default error-node handling is left out.
- The file name, the unused parameters field and the `getFilename` getter are left out. `getDeviceName` is the state's `deviceName`, which is `None` until a header arrives.
- `MainProcessor` is left out: it only chooses how to load a parameter file.
- Processor.CheckEndpoint: does not model the code's missing `else`. It checks the port only for a declared identifier. The as-written behaviour is `ChannelAsWritten.CheckEndpointAsWritten` (see Findings).
- Processor.ExitChannelStat: uses the guarded endpoint check of `Processor.CheckEndpoint`, so an undeclared first endpoint is reported and the statement goes on. The code as written stops at the lookup of the missing entry (UFProcessor.java:101-102). The `Runs` and `Scenarios` lemmas about channels rely on the same guarded check (see Findings).

## Findings

| source | as written | input that shows it | evidently intended | confidence | as-written member | corrected member |
|---|---|---|---|---|---|---|
| src/main/java/com/github/ilms49898723/fluigi/mintparse/UFProcessor.java:97-105 | After reporting an undeclared endpoint identifier, the code still fetches that identifier's entry and calls `hasPort` on it, because the port check is not in an `else` branch. | A channel from `z` port 1 in a device where `z` is undeclared (`ChannelAsWritten.UndeclaredEndpointExample`). The statement ends at the missing-entry lookup. The channel is never registered, and its edge and the second endpoint's check never happen. | The port is checked only for a declared identifier, and analysis continues: report UndefinedIdentifier, check the other endpoint, register the channel, add the edge. | medium (the lookup of an absent key is in the symbol table, which is not part of this model); not executed | ChannelAsWritten.ExitChannelStatAsWritten | Processor.ExitChannelStat |

=== FILE: channel_as_written.dfy ===
/** The channel endpoint check as the analyzer's code is written: the port
    check is not in an `else` branch, so an absent identifier is reported and
    then its (missing) table entry is still looked up. The symbol table's
    lookup of an absent key is not part of this model; here it is an explicit
    `MissingEntry` outcome that ends the statement. The rest of the model uses
    the guarded check `Processor.CheckEndpoint` instead. */
module ChannelAsWritten {
  import opened Components
  import opened DeviceGraph
  import opened Processor

  /** The check went on, or it reached the lookup of an absent identifier,
      with the state reached at that point. */
  datatype Checked = Checked(state: State) | MissingEntry(state: State)

  function CheckEndpointAsWritten(s: State, ep: Vertex, channelPorts: int -> bool): (r: Checked)
    ensures r.MissingEntry? <==> ep.id !in s.table
    ensures r.MissingEntry? ==> r.state.diags == s.diags + [Diag(UndefinedIdentifier, ep.id)]
  {
    var s1 := if ep.id !in s.table then Invalidate(s, Diag(UndefinedIdentifier, ep.id)) else s;
    if ep.id !in s1.table then MissingEntry(s1)
    else if !HasPort(s1.table[ep.id], ep.port, channelPorts) then Checked(Invalidate(s1, Diag(UndefinedPort, ep.id)))
    else Checked(s1)
  }

  function ExitChannelStatAsWritten(s: State, name: string, source: Vertex, target: Vertex, channelPorts: int -> bool): (r: Checked)
    ensures r.MissingEntry? <==> source.id !in s.table || target.id !in s.table
    ensures r.MissingEntry? ==> r.state.table == s.table && r.state.graph == s.graph && !r.state.valid
  {
    match CheckEndpointAsWritten(s, source, channelPorts)
    case MissingEntry(t) => MissingEntry(t)
    case Checked(s1) =>
      match CheckEndpointAsWritten(s1, target, channelPorts)
      case MissingEntry(t) => MissingEntry(t)
      case Checked(s2) =>
        var s3 := Register(s2, name, Channel);
        Checked(s3.(graph := AddEdge(s3.graph, Edge(source, target))))
  }

  /** When both endpoint identifiers are declared, the code as written and
      the guarded check agree exactly. */
  lemma AsWrittenAgreesWhenDeclared(s: State, name: string, source: Vertex, target: Vertex, channelPorts: int -> bool)
    requires source.id in s.table && target.id in s.table
    ensures ExitChannelStatAsWritten(s, name, source, target, channelPorts)
              == Checked(ExitChannelStat(s, name, source, target, channelPorts))
  {
  }

  /** With an undeclared endpoint the code as written never reaches the
      channel's registration or its edge, whereas the guarded check reports
      the identifier, registers the channel and records the edge. */
  lemma AsWrittenStopsOnUndeclaredEndpoint(s: State, name: string, source: Vertex, target: Vertex, channelPorts: int -> bool)
    requires source.id !in s.table || target.id !in s.table
    ensures ExitChannelStatAsWritten(s, name, source, target, channelPorts).MissingEntry?
    ensures var r := ExitChannelStat(s, name, source, target, channelPorts);
            && name in r.table
            && r.graph.edges == s.graph.edges + [Edge(source, target)]
            && (source.id !in s.table ==> Diag(UndefinedIdentifier, source.id) in r.diags)
            && (target.id !in s.table ==> Diag(UndefinedIdentifier, target.id) in r.diags)
  {
  }

  /** The concrete input: a channel from an undeclared component `z` in an
      empty device. */
  lemma UndeclaredEndpointExample(channelPorts: int -> bool)
    ensures var s := Init(map[], Graph({}, []));
            var src := Vertex("z", 1);
            var dst := Vertex("z", 2);
            && ExitChannelStatAsWritten(s, "c1", src, dst, channelPorts)
                 == MissingEntry(Invalidate(s, Diag(UndefinedIdentifier, "z")))
            && ExitChannelStat(s, "c1", src, dst, channelPorts).graph.edges == [Edge(src, dst)]
  {
  }
}

=== FILE: components.dfy ===
/** The device elements a microfluidic description declares, and the port
    capability of each element kind. */
module Components {

  /** The layer a component belongs to; `Undefined` outside any layer block. */
  datatype Layer = Flow | Control | Undefined

  /** The six element kinds, each with its own geometry. A port's radius is a
      real number in the description language; it is carried here as an opaque
      integer payload and never reasoned about. */
  datatype Variant =
    | Port(radius: int)
    | Channel
    | Node
    | SquareCellTrap(chamberWidth: int, chamberLength: int, channelWidth: int)
    | LongCellTrap(numChambers: int, chamberWidth: int, chamberLength: int,
                   chamberSpacing: int, channelWidth: int)
    | Mixer(numBends: int, bendSpacing: int, bendLength: int, channelWidth: int)

  datatype Component = Component(id: string, layer: Layer, variant: Variant)

  /** The number of graph vertices a declaration of this kind registers
      (ports 1 to `VertexCount`); a channel registers none. */
  function VertexCount(v: Variant): (n: nat)
    ensures v.Channel? <==> n == 0
    ensures n == 0 || n == 2 || n == 4
  {
    match v
    case Port(_) => 4
    case Node => 4
    case SquareCellTrap(_, _, _) => 4
    case LongCellTrap(_, _, _, _, _) => 2
    case Mixer(_, _, _, _) => 2
    case Channel => 0
  }

  /** The capability query: whether `port` is a valid port index of `c`.
      A channel's capability is not part of this model, so it is supplied by
      the caller as `channelPorts`. */
  predicate HasPort(c: Component, port: int, channelPorts: int -> bool)
  {
    if c.variant.Channel? then channelPorts(port)
    else 1 <= port <= VertexCount(c.variant)
  }

  /** For every kind but a channel, the ports a component has are exactly the
      ports its declaration registers as vertices. */
  lemma HasPortIsVertexRange(c: Component, port: int, channelPorts: int -> bool)
    requires !c.variant.Channel?
    ensures HasPort(c, port, channelPorts) <==> 1 <= port <= VertexCount(c.variant)
    ensures c.variant.Port? || c.variant.Node? || c.variant.SquareCellTrap? ==>
              (HasPort(c, port, channelPorts) <==> port in {1, 2, 3, 4})
    ensures c.variant.LongCellTrap? || c.variant.Mixer? ==>
              (HasPort(c, port, channelPorts) <==> port in {1, 2})
  {
  }
}

=== FILE: device_graph.dfy ===
/** The device graph: vertices are (component identifier, port index) pairs,
    edges are channel connections between two such pairs. */
module DeviceGraph {

  datatype Vertex = Vertex(id: string, port: int)

  /** A channel connection between two vertices, kept in declaration order. */
  datatype Edge = Edge(source: Vertex, target: Vertex)

  datatype Graph = Graph(vertices: set<Vertex>, edges: seq<Edge>)

  /** Adds a vertex; adding one that is already present changes nothing. */
  function AddVertex(g: Graph, v: Vertex): (r: Graph)
    ensures v in r.vertices
    ensures forall w :: w in r.vertices <==> w in g.vertices || w == v
    ensures r.edges == g.edges
    ensures v in g.vertices ==> r == g
  {
    g.(vertices := g.vertices + {v})
  }

  /** Appends one edge; the edge is recorded as given, whether or not its
      endpoints are vertices of the graph. */
  function AddEdge(g: Graph, e: Edge): (r: Graph)
    ensures r.vertices == g.vertices
    ensures |r.edges| == |g.edges| + 1 && r.edges[|g.edges|] == e
    ensures g.edges <= r.edges
  {
    g.(edges := g.edges + [e])
  }

  /** Adding the same vertex twice leaves the same graph as adding it once. */
  lemma AddVertexIdempotent(g: Graph, v: Vertex)
    ensures AddVertex(AddVertex(g, v), v) == AddVertex(g, v)
  {
  }

  /** The registration loop `for i in lo..hi: addVertex(id, i)`. */
  function AddPorts(g: Graph, id: string, lo: int, hi: int): (r: Graph)
    ensures forall w :: w in r.vertices <==> w in g.vertices || (w.id == id && lo <= w.port <= hi)
    ensures r.edges == g.edges
    decreases hi - lo
  {
    if lo > hi then g else AddPorts(AddVertex(g, Vertex(id, lo)), id, lo + 1, hi)
  }

  /** The mixer's registration loop: for `i` from 1 to 2 it adds both
      `(id, 1)` and `(id, 2)`, so each vertex is added twice. */
  function MixerPorts(g: Graph, id: string, i: int): Graph
    decreases 2 - i
  {
    if i > 2 then g
    else MixerPorts(AddVertex(AddVertex(g, Vertex(id, 1)), Vertex(id, 2)), id, i + 1)
  }

  /** The doubled insertions of the mixer loop leave exactly the vertices a
      single pass over ports 1 and 2 leaves. */
  lemma MixerPortsAddsEachOnce(g: Graph, id: string)
    ensures MixerPorts(g, id, 1) == AddPorts(g, id, 1, 2)
    ensures MixerPorts(g, id, 1).vertices == g.vertices + {Vertex(id, 1), Vertex(id, 2)}
  {
  }
}

=== FILE: params.dfy ===
/** Optional named parameters of cell-trap and mixer declarations. Each
    parameter is collected into its own local, which starts at 0 and is
    overwritten by every occurrence of that parameter in the list. */
module Params {

  datatype Param<K> = Param(key: K, value: int)

  datatype CellTrapKey = NumChambers | ChamberWidth | ChamberLength | ChamberSpacing | TrapChannelWidth

  datatype MixerKey = NumBends | BendSpacing | BendLength | MixerChannelWidth

  /** The collection loop for one local, starting from `current`. */
  function Scan<K(==)>(ps: seq<Param<K>>, k: K, current: int): int
  {
    if ps == [] then current
    else Scan(ps[1..], k, if ps[0].key == k then ps[0].value else current)
  }

  /** The value the local for `k` holds after the loop. */
  function Assigned<K(==)>(ps: seq<Param<K>>, k: K): int
  {
    Scan(ps, k, 0)
  }

  predicate Absent<K(==)>(ps: seq<Param<K>>, k: K)
  {
    forall i :: 0 <= i < |ps| ==> ps[i].key != k
  }

  /** `ps[i]` is the last occurrence of parameter `k` in `ps`. */
  predicate IsLast<K(==)>(ps: seq<Param<K>>, k: K, i: int)
  {
    0 <= i < |ps| && ps[i].key == k && forall j :: i < j < |ps| ==> ps[j].key != k
  }

  lemma {:induction false} ScanAbsent<K>(ps: seq<Param<K>>, k: K, current: int)
    requires Absent(ps, k)
    ensures Scan(ps, k, current) == current
    decreases |ps|
  {
    if ps != [] {
      assert ps[0].key != k;
      assert Absent(ps[1..], k) by {
        forall i | 0 <= i < |ps[1..]| ensures ps[1..][i].key != k {
          assert ps[1..][i] == ps[i + 1];
        }
      }
      ScanAbsent(ps[1..], k, current);
    }
  }

  lemma {:induction false} ScanLast<K>(ps: seq<Param<K>>, k: K, i: int, current: int)
    requires IsLast(ps, k, i)
    ensures Scan(ps, k, current) == ps[i].value
    decreases |ps|
  {
    var next := if ps[0].key == k then ps[0].value else current;
    if i == 0 {
      assert Absent(ps[1..], k) by {
        forall j | 0 <= j < |ps[1..]| ensures ps[1..][j].key != k {
          assert ps[1..][j] == ps[j + 1];
        }
      }
      ScanAbsent(ps[1..], k, next);
    } else {
      assert IsLast(ps[1..], k, i - 1) by {
        forall j | i - 1 < j < |ps[1..]| ensures ps[1..][j].key != k {
          assert ps[1..][j] == ps[j + 1];
        }
      }
      ScanLast(ps[1..], k, i - 1, next);
    }
  }

  /** A parameter that is not supplied defaults to 0. */
  lemma AbsentIsZero<K>(ps: seq<Param<K>>, k: K)
    requires Absent(ps, k)
    ensures Assigned(ps, k) == 0
  {
    ScanAbsent(ps, k, 0);
  }

  /** A parameter supplied more than once takes the value of its last
      occurrence. */
  lemma LastOccurrenceWins<K>(ps: seq<Param<K>>, k: K, i: int)
    requires IsLast(ps, k, i)
    ensures Assigned(ps, k) == ps[i].value
  {
    ScanLast(ps, k, i, 0);
  }
}

=== FILE: processor.dfy ===
/** The semantic analyzer. It reacts to one declaration event at a time, in
    source order, updating the symbol table, the device graph, the sticky
    validity flag and the current-layer context. */
module Processor {
  import opened Components
  import opened SymbolTable
  import opened DeviceGraph
  import opened Params

  datatype Option<T> = None | Some(value: T)

  datatype ErrorKind = DuplicatedIdentifier | UndefinedIdentifier | UndefinedPort

  /** A reported semantic error, tagged with the identifier it concerns. */
  datatype Diag = Diag(kind: ErrorKind, ident: string)

  datatype BlockKind = FlowBlock | ControlBlock

  /** One declaration event, with its values already parsed. */
  datatype Event =
    | Header(name: string)
    | EnterBlock(block: BlockKind)
    | ExitBlock(block: BlockKind)
    | PortStat(names: seq<string>, radius: int)
    | ChannelStat(name: string, source: Vertex, target: Vertex)
    | NodeStat(names: seq<string>)
    | CellTrapStat(typeTag: string, names: seq<string>, trapParams: seq<Param<CellTrapKey>>)
    | MixerStat(name: string, mixerParams: seq<Param<MixerKey>>)
    | ErrorNode

  datatype State = State(
    valid: bool,
    deviceName: Option<string>,
    layer: Layer,
    table: Table,
    graph: Graph,
    diags: seq<Diag>)

  /** The result of an event: analysis goes on, or a malformed parse-tree node
      aborted it, leaving the state as it was before that node. */
  datatype Outcome = Running(state: State) | Aborted(state: State)

  const SquareTag: string := "SQUARE CELL TRAP"

  function LayerOf(b: BlockKind): Layer
  {
    match b
    case FlowBlock => Flow
    case ControlBlock => Control
  }

  /** A fresh analyzer over the symbol table and graph it is given. */
  function Init(table: Table, graph: Graph): (s: State)
    ensures s.valid && s.layer == Undefined && s.deviceName == None
    ensures s.table == table && s.graph == graph && s.diags == []
  {
    State(true, None, Undefined, table, graph, [])
  }

  /** Reports `d` and clears the validity flag. */
  function Invalidate(s: State, d: Diag): (r: State)
    ensures !r.valid && r.diags == s.diags + [d]
    ensures r.(valid := s.valid, diags := s.diags) == s
  {
    s.(valid := false, diags := s.diags + [d])
  }

  /** Registers a component named `id` of kind `v` in the current layer; a name
      already present keeps its entry and is reported as a duplicate. */
  function Register(s: State, id: string, v: Variant): (r: State)
    ensures r.layer == s.layer && r.graph == s.graph && r.deviceName == s.deviceName
    ensures Extends(s.table, r.table) && r.table.Keys == s.table.Keys + {id}
    ensures id !in s.table ==>
              r.table == s.table[id := Component(id, s.layer, v)] && r.diags == s.diags && r.valid == s.valid
    ensures id in s.table ==> r.table == s.table && r.diags == s.diags + [Diag(DuplicatedIdentifier, id)] && !r.valid
  {
    var put := Put(s.table, id, Component(id, s.layer, v));
    if put.inserted then s.(table := put.table)
    else Invalidate(s.(table := put.table), Diag(DuplicatedIdentifier, id))
  }

  /** Registers `id` and then its vertices `(id, 1)` to `(id, ports)`, whether
      or not the name was a duplicate. */
  function Declare(s: State, id: string, v: Variant, ports: nat): State
  {
    var r := Register(s, id, v);
    r.(graph := AddPorts(r.graph, id, 1, ports))
  }

  /** No name of `names` is in `known`, and no name occurs twice in `names`. */
  ghost predicate AllFresh(known: set<string>, names: seq<string>)
  {
    && (forall i :: 0 <= i < |names| ==> names[i] !in known)
    && (forall i, j :: 0 <= i < j < |names| ==> names[i] != names[j])
  }

  lemma AllFreshUnfold(known: set<string>, names: seq<string>)
    requires names != []
    ensures AllFresh(known, names) <==> names[0] !in known && AllFresh(known + {names[0]}, names[1..])
  {
  }

  lemma NewKeysCount(before: set<string>, mid: set<string>, after: set<string>, n: string)
    requires mid == before + {n} && n !in before && mid <= after
    ensures |after - before| == |after - mid| + 1
  {
  }

  /** The loop over the names of one statement: every name is declared in
      turn, and an error on one name does not stop the others. */
  function DeclareAll(s: State, names: seq<string>, v: Variant, ports: nat): (r: State)
    ensures r.layer == s.layer && r.deviceName == s.deviceName && r.graph.edges == s.graph.edges
    ensures Extends(s.table, r.table)
    ensures r.table.Keys == s.table.Keys + set n | n in names
    ensures forall n :: n in r.table && n !in s.table ==> r.table[n] == Component(n, s.layer, v)
    ensures forall w :: w in r.graph.vertices <==> w in s.graph.vertices || (w.id in names && 1 <= w.port <= ports)
    decreases |names|
  {
    if names == [] then s
    else
      var r := DeclareAll(Declare(s, names[0], v, ports), names[1..], v, ports);
      assert forall n :: n in names <==> n == names[0] || n in names[1..];
      r
  }

  /** What one statement reports: every diagnostic it adds is a duplicate of
      one of its names, and it clears the validity flag exactly when it adds
      one. */
  lemma {:induction false} DeclareAllReports(s: State, names: seq<string>, v: Variant, ports: nat)
    ensures var r := DeclareAll(s, names, v, ports);
            && s.diags <= r.diags
            && (r.valid <==> s.valid && |r.diags| == |s.diags|)
            && forall i :: |s.diags| <= i < |r.diags| ==>
                 r.diags[i].kind == DuplicatedIdentifier && r.diags[i].ident in names
    decreases |names|
  {
    if names != [] {
      var s1 := Declare(s, names[0], v, ports);
      DeclareAllReports(s1, names[1..], v, ports);
    }
  }

  /** One duplicate diagnostic for every name that did not add a new entry;
      validity survives exactly when all names were fresh. */
  lemma {:induction false} DeclareAllDuplicates(s: State, names: seq<string>, v: Variant, ports: nat)
    ensures var r := DeclareAll(s, names, v, ports);
            && (r.valid <==> s.valid && AllFresh(s.table.Keys, names))
            && |r.diags| == |s.diags| + |names| - |r.table.Keys - s.table.Keys|
    decreases |names|
  {
    if names != [] {
      var s1 := Declare(s, names[0], v, ports);
      var r := DeclareAll(s1, names[1..], v, ports);
      DeclareAllDuplicates(s1, names[1..], v, ports);
      AllFreshUnfold(s.table.Keys, names);
      if names[0] !in s.table {
        NewKeysCount(s.table.Keys, s1.table.Keys, r.table.Keys, names[0]);
      }
    }
  }

  lemma SliceSplit<T>(a: seq<T>, b: seq<T>, c: seq<T>)
    requires a <= b <= c
    ensures c[|a|..] == b[|a|..] + c[|b|..]
  {
  }

  /** One step of the count below: the diagnostic the first name may add,
      followed by those of the remaining names. */
  lemma DupCountStep(names: seq<string>, known: set<string>, first: seq<Diag>, rest: seq<Diag>, n: string)
    requires names != []
    requires first == if names[0] in known then [Diag(DuplicatedIdentifier, names[0])] else []
    requires multiset(rest)[Diag(DuplicatedIdentifier, n)] ==
               if n in known + {names[0]} || n !in names[1..] then multiset(names[1..])[n] else multiset(names[1..])[n] - 1
    ensures multiset(first + rest)[Diag(DuplicatedIdentifier, n)] ==
              if n in known || n !in names then multiset(names)[n] else multiset(names)[n] - 1
  {
    assert names == [names[0]] + names[1..];
    assert multiset(names) == multiset{names[0]} + multiset(names[1..]);
    assert multiset(first + rest) == multiset(first) + multiset(rest);
    assert n in names <==> n == names[0] || n in names[1..];
  }

  /** Which names a statement reports: a name is reported once for each of
      its occurrences, except the first occurrence of a name that was not yet
      declared, which adds the entry instead. */
  lemma {:induction false} DeclareAllDupCounts(s: State, names: seq<string>, v: Variant, ports: nat)
    ensures var r := DeclareAll(s, names, v, ports);
            && s.diags <= r.diags
            && forall n :: multiset(r.diags[|s.diags|..])[Diag(DuplicatedIdentifier, n)] ==
                 if n in s.table || n !in names then multiset(names)[n] else multiset(names)[n] - 1
    decreases |names|
  {
    if names != [] {
      var s1 := Declare(s, names[0], v, ports);
      var r := DeclareAll(s1, names[1..], v, ports);
      DeclareAllDupCounts(s1, names[1..], v, ports);
      var first := s1.diags[|s.diags|..];
      var rest := r.diags[|s1.diags|..];
      assert s1.table.Keys == s.table.Keys + {names[0]};
      if names[0] in s.table {
        assert s1.diags == s.diags + [Diag(DuplicatedIdentifier, names[0])];
      } else {
        assert s1.diags == s.diags;
      }
      SliceSplit(s.diags, s1.diags, r.diags);
      forall n
        ensures multiset(r.diags[|s.diags|..])[Diag(DuplicatedIdentifier, n)] ==
                  if n in s.table || n !in names then multiset(names)[n] else multiset(names)[n] - 1
      {
        assert (n in s1.table) == (n in s.table.Keys + {names[0]});
        DupCountStep(names, s.table.Keys, first, rest, n);
      }
    }
  }

  /** The endpoint refers to a declared component that has the given port. */
  ghost predicate Resolves(t: Table, ep: Vertex, channelPorts: int -> bool)
  {
    ep.id in t && HasPort(t[ep.id], ep.port, channelPorts)
  }

  /** Checks one channel endpoint: an absent identifier is reported as
      undefined; only a present one has its port checked. */
  function CheckEndpoint(s: State, ep: Vertex, channelPorts: int -> bool): (r: State)
    ensures r.table == s.table && r.graph == s.graph && r.layer == s.layer && r.deviceName == s.deviceName
    ensures Resolves(s.table, ep, channelPorts) ==> r == s
    ensures ep.id !in s.table ==> r.diags == s.diags + [Diag(UndefinedIdentifier, ep.id)] && !r.valid
    ensures ep.id in s.table && !Resolves(s.table, ep, channelPorts) ==>
              r.diags == s.diags + [Diag(UndefinedPort, ep.id)] && !r.valid
  {
    if ep.id !in s.table then Invalidate(s, Diag(UndefinedIdentifier, ep.id))
    else if !HasPort(s.table[ep.id], ep.port, channelPorts) then Invalidate(s, Diag(UndefinedPort, ep.id))
    else s
  }

  function ExitHeader(s: State, name: string): (r: State)
    ensures r.deviceName == Some(name)
    ensures r.(deviceName := s.deviceName) == s
  {
    s.(deviceName := Some(name))
  }

  /** Every name gets a port of the given radius and vertices for ports 1 to 4. */
  function ExitPortStat(s: State, names: seq<string>, radius: int): (r: State)
    ensures forall n :: n in r.table && n !in s.table ==> r.table[n].variant == Port(radius)
    ensures forall w :: w in r.graph.vertices <==> w in s.graph.vertices || (w.id in names && w.port in {1, 2, 3, 4})
  {
    DeclareAll(s, names, Port(radius), 4)
  }

  function ExitNodeStat(s: State, names: seq<string>): (r: State)
    ensures forall n :: n in r.table && n !in s.table ==> r.table[n].variant == Node
    ensures forall w :: w in r.graph.vertices <==> w in s.graph.vertices || (w.id in names && w.port in {1, 2, 3, 4})
  {
    DeclareAll(s, names, Node, 4)
  }

  /** Both endpoints are checked, then the channel is registered under its own
      name, and the edge is appended whatever the checks found. */
  function ExitChannelStat(s: State, name: string, source: Vertex, target: Vertex, channelPorts: int -> bool): (r: State)
    ensures r.graph.vertices == s.graph.vertices && r.graph.edges == s.graph.edges + [Edge(source, target)]
    ensures r.layer == s.layer && r.deviceName == s.deviceName
    ensures r.table == if name in s.table then s.table else s.table[name := Component(name, s.layer, Channel)]
    ensures r.valid <==>
              s.valid && Resolves(s.table, source, channelPorts) && Resolves(s.table, target, channelPorts) && name !in s.table
    ensures s.diags <= r.diags
    ensures |r.diags| == |s.diags| + (if Resolves(s.table, source, channelPorts) then 0 else 1)
                                   + (if Resolves(s.table, target, channelPorts) then 0 else 1)
                                   + (if name in s.table then 1 else 0)
    ensures source.id !in s.table ==> r.diags[|s.diags|] == Diag(UndefinedIdentifier, source.id)
    ensures source.id in s.table && !Resolves(s.table, source, channelPorts) ==>
              r.diags[|s.diags|] == Diag(UndefinedPort, source.id)
    ensures var k := |s.diags| + (if Resolves(s.table, source, channelPorts) then 0 else 1);
            && (target.id !in s.table ==> r.diags[k] == Diag(UndefinedIdentifier, target.id))
            && (target.id in s.table && !Resolves(s.table, target, channelPorts) ==>
                  r.diags[k] == Diag(UndefinedPort, target.id))
    ensures name in s.table ==> r.diags[|r.diags| - 1] == Diag(DuplicatedIdentifier, name)
  {
    var s1 := CheckEndpoint(s, source, channelPorts);
    var s2 := CheckEndpoint(s1, target, channelPorts);
    var s3 := Register(s2, name, Channel);
    s3.(graph := AddEdge(s3.graph, Edge(source, target)))
  }

  /** The component kind a cell-trap statement declares: a square trap for the
      exact tag "SQUARE CELL TRAP", a long trap for any other tag. */
  function CellTrapVariant(typeTag: string, ps: seq<Param<CellTrapKey>>): (v: Variant)
    ensures v.SquareCellTrap? <==> typeTag == SquareTag
    ensures v.LongCellTrap? <==> typeTag != SquareTag
    ensures v.SquareCellTrap? ==>
              v == SquareCellTrap(Assigned(ps, ChamberWidth), Assigned(ps, ChamberLength), Assigned(ps, TrapChannelWidth))
    ensures v.LongCellTrap? ==>
              v == LongCellTrap(Assigned(ps, NumChambers), Assigned(ps, ChamberWidth), Assigned(ps, ChamberLength),
                                Assigned(ps, ChamberSpacing), Assigned(ps, TrapChannelWidth))
  {
    if typeTag == SquareTag then
      SquareCellTrap(Assigned(ps, ChamberWidth), Assigned(ps, ChamberLength), Assigned(ps, TrapChannelWidth))
    else
      LongCellTrap(Assigned(ps, NumChambers), Assigned(ps, ChamberWidth), Assigned(ps, ChamberLength),
                   Assigned(ps, ChamberSpacing), Assigned(ps, TrapChannelWidth))
  }

  function ExitCellTrapStat(s: State, typeTag: string, names: seq<string>, ps: seq<Param<CellTrapKey>>): (r: State)
    ensures forall n :: n in r.table && n !in s.table ==> r.table[n].variant == CellTrapVariant(typeTag, ps)
    ensures typeTag == SquareTag ==>
              forall w :: w in r.graph.vertices <==> w in s.graph.vertices || (w.id in names && w.port in {1, 2, 3, 4})
    ensures typeTag != SquareTag ==>
              forall w :: w in r.graph.vertices <==> w in s.graph.vertices || (w.id in names && w.port in {1, 2})
  {
    var v := CellTrapVariant(typeTag, ps);
    if typeTag == SquareTag then DeclareAll(s, names, v, 4) else DeclareAll(s, names, v, 2)
  }

  /** The mixer a mixer statement declares, its fields taken from the
      collected parameters in constructor order. */
  function MixerVariant(ps: seq<Param<MixerKey>>): (v: Variant)
    ensures v.Mixer?
    ensures v.numBends == Assigned(ps, NumBends) && v.bendSpacing == Assigned(ps, BendSpacing)
    ensures v.bendLength == Assigned(ps, BendLength) && v.channelWidth == Assigned(ps, MixerChannelWidth)
  {
    Mixer(Assigned(ps, NumBends), Assigned(ps, BendSpacing), Assigned(ps, BendLength), Assigned(ps, MixerChannelWidth))
  }

  function ExitMixerStat(s: State, name: string, ps: seq<Param<MixerKey>>): (r: State)
    ensures r.graph.vertices == s.graph.vertices + {Vertex(name, 1), Vertex(name, 2)}
    ensures r.graph.edges == s.graph.edges
    ensures name !in s.table ==>
              r.table == s.table[name := Component(name, s.layer, MixerVariant(ps))] && r.diags == s.diags && r.valid == s.valid
    ensures name in s.table ==> r.table == s.table && r.diags == s.diags + [Diag(DuplicatedIdentifier, name)] && !r.valid
  {
    var r := Register(s, name, MixerVariant(ps));
    MixerPortsAddsEachOnce(r.graph, name);
    r.(graph := MixerPorts(r.graph, name, 1))
  }

  /** Reacts to one event: a malformed node aborts, leaving the state as it
      was; block entry and exit set and reset the current layer; no other
      event touches the layer, and block events touch nothing else; only a
      header sets the device name. */
  function Step(s: State, e: Event, channelPorts: int -> bool): (o: Outcome)
    ensures o.Aborted? <==> e.ErrorNode?
    ensures o.Aborted? ==> o.state == s
    ensures e.EnterBlock? ==> o.state.layer == LayerOf(e.block)
    ensures e.ExitBlock? ==> o.state.layer == Undefined
    ensures !e.EnterBlock? && !e.ExitBlock? ==> o.state.layer == s.layer
    ensures e.EnterBlock? || e.ExitBlock? ==> o.state == s.(layer := o.state.layer)
    ensures e.Header? ==> o.state.deviceName == Some(e.name)
    ensures !e.Header? ==> o.state.deviceName == s.deviceName
  {
    match e
    case Header(name) => Running(ExitHeader(s, name))
    case EnterBlock(b) => Running(s.(layer := LayerOf(b)))
    case ExitBlock(_) => Running(s.(layer := Undefined))
    case PortStat(names, radius) => Running(ExitPortStat(s, names, radius))
    case ChannelStat(name, source, target) => Running(ExitChannelStat(s, name, source, target, channelPorts))
    case NodeStat(names) => Running(ExitNodeStat(s, names))
    case CellTrapStat(tag, names, ps) => Running(ExitCellTrapStat(s, tag, names, ps))
    case MixerStat(name, ps) => Running(ExitMixerStat(s, name, ps))
    case ErrorNode => Aborted(s)
  }

  /** Processes events in order until the end or until one aborts. */
  function Run(s: State, es: seq<Event>, channelPorts: int -> bool): Outcome
    decreases |es|
  {
    if es == [] then Running(s)
    else
      match Step(s, es[0], channelPorts)
      case Aborted(t) => Aborted(t)
      case Running(t) => Run(t, es[1..], channelPorts)
  }
}

=== FILE: runs.dfy ===
/** Properties of the analyzer over whole event sequences. */
module Runs {
  import opened Components
  import opened SymbolTable
  import opened DeviceGraph
  import Params
  import opened Processor

  /** Every event only appends diagnostics, and clears the validity flag
      exactly when it appends one. */
  lemma StepReports(s: State, e: Event, channelPorts: int -> bool)
    ensures var t := Step(s, e, channelPorts).state;
            && s.diags <= t.diags
            && (t.valid <==> s.valid && |t.diags| == |s.diags|)
  {
    var t := Step(s, e, channelPorts).state;
    match e
    case PortStat(names, radius) =>
      assert t == DeclareAll(s, names, Port(radius), 4);
      DeclareAllReports(s, names, Port(radius), 4);
    case NodeStat(names) =>
      assert t == DeclareAll(s, names, Node, 4);
      DeclareAllReports(s, names, Node, 4);
    case CellTrapStat(tag, names, ps) =>
      var v := CellTrapVariant(tag, ps);
      if tag == SquareTag {
        assert t == DeclareAll(s, names, v, 4);
        DeclareAllReports(s, names, v, 4);
      } else {
        assert t == DeclareAll(s, names, v, 2);
        DeclareAllReports(s, names, v, 2);
      }
    case MixerStat(name, ps) =>
      assert t == ExitMixerStat(s, name, ps);
    case ChannelStat(name, source, target) =>
      assert t == ExitChannelStat(s, name, source, target, channelPorts);
    case Header(name) =>
      assert t.valid == s.valid && t.diags == s.diags;
    case EnterBlock(_) =>
      assert t.valid == s.valid && t.diags == s.diags;
    case ExitBlock(_) =>
      assert t.valid == s.valid && t.diags == s.diags;
    case ErrorNode =>
  }

  /** Every event keeps all existing entries unchanged, only grows the graph,
      and gives each new entry its own name and the current layer. */
  lemma StepGrows(s: State, e: Event, channelPorts: int -> bool)
    ensures var t := Step(s, e, channelPorts).state;
            && Extends(s.table, t.table)
            && s.graph.vertices <= t.graph.vertices && s.graph.edges <= t.graph.edges
            && forall n :: n in t.table && n !in s.table ==> t.table[n].id == n && t.table[n].layer == s.layer
  {
  }

  /** Running `es1 + es2` runs `es1` and, unless that aborted, continues with
      `es2` from where it stopped. */
  lemma {:induction false} RunAppend(s: State, es1: seq<Event>, es2: seq<Event>, channelPorts: int -> bool)
    ensures Run(s, es1 + es2, channelPorts) ==
              match Run(s, es1, channelPorts)
              case Aborted(t) => Aborted(t)
              case Running(t) => Run(t, es2, channelPorts)
    decreases |es1|
  {
    if es1 == [] {
      assert es1 + es2 == es2;
    } else {
      assert (es1 + es2)[0] == es1[0];
      assert (es1 + es2)[1..] == es1[1..] + es2;
      match Step(s, es1[0], channelPorts)
      case Aborted(t) =>
      case Running(t) => RunAppend(t, es1[1..], es2, channelPorts);
    }
  }

  ghost predicate NoErrorNode(es: seq<Event>)
  {
    forall i :: 0 <= i < |es| ==> !es[i].ErrorNode?
  }

  /** A run aborts exactly when it meets a malformed node. */
  lemma {:induction false} AbortsIffErrorNode(s: State, es: seq<Event>, channelPorts: int -> bool)
    ensures Run(s, es, channelPorts).Aborted? <==> !NoErrorNode(es)
    decreases |es|
  {
    if es != [] {
      match Step(s, es[0], channelPorts)
      case Aborted(t) =>
      case Running(t) =>
        AbortsIffErrorNode(t, es[1..], channelPorts);
        if NoErrorNode(es[1..]) {
          forall i | 0 <= i < |es| ensures !es[i].ErrorNode? {
            if i > 0 { assert es[i] == es[1..][i - 1]; }
          }
        } else {
          var i :| 0 <= i < |es[1..]| && es[1..][i].ErrorNode?;
          assert es[i + 1].ErrorNode?;
        }
    }
  }

  /** A malformed node ends the analysis: the outcome is the state reached just
      before it, and nothing after it is processed. */
  lemma AbortDiscardsRest(s: State, es1: seq<Event>, es2: seq<Event>, channelPorts: int -> bool)
    requires NoErrorNode(es1)
    ensures Run(s, es1 + [ErrorNode] + es2, channelPorts) == Aborted(Run(s, es1, channelPorts).state)
  {
    AbortsIffErrorNode(s, es1, channelPorts);
    RunAppend(s, es1, [ErrorNode] + es2, channelPorts);
    assert es1 + [ErrorNode] + es2 == es1 + ([ErrorNode] + es2);
  }

  /** Over a whole run: diagnostics are only appended, the validity flag ends
      true exactly when it started true and nothing was reported, and the
      first declaration of every name wins. */
  lemma {:induction false} RunBookkeeping(s: State, es: seq<Event>, channelPorts: int -> bool)
    ensures var t := Run(s, es, channelPorts).state;
            && s.diags <= t.diags
            && (t.valid <==> s.valid && |t.diags| == |s.diags|)
            && Extends(s.table, t.table)
    decreases |es|
  {
    if es != [] {
      StepReports(s, es[0], channelPorts);
      StepGrows(s, es[0], channelPorts);
      match Step(s, es[0], channelPorts)
      case Aborted(t) =>
      case Running(t) =>
        RunBookkeeping(t, es[1..], channelPorts);
        ExtendsTransitive(s.table, t.table, Run(t, es[1..], channelPorts).state.table);
    }
  }

  /** Validity is sticky: once false it stays false for the rest of the run. */
  lemma InvalidStaysInvalid(s: State, es: seq<Event>, channelPorts: int -> bool)
    requires !s.valid
    ensures !Run(s, es, channelPorts).state.valid
  {
    RunBookkeeping(s, es, channelPorts);
  }

  /** From a fresh analyzer, the device is valid exactly when no diagnostic
      was reported. */
  lemma FreshRunValidIffSilent(table: Table, graph: Graph, es: seq<Event>, channelPorts: int -> bool)
    ensures var t := Run(Init(table, graph), es, channelPorts).state;
            t.valid <==> t.diags == []
  {
    RunBookkeeping(Init(table, graph), es, channelPorts);
  }

  ghost predicate NoBlockEvents(es: seq<Event>)
  {
    forall i :: 0 <= i < |es| ==> !es[i].EnterBlock? && !es[i].ExitBlock?
  }

  /** Events other than block entry and exit keep the layer, and everything
      they declare carries that layer. */
  lemma {:induction false} DeclarationsCarryLayer(s: State, es: seq<Event>, channelPorts: int -> bool)
    requires NoBlockEvents(es)
    ensures var t := Run(s, es, channelPorts).state;
            && t.layer == s.layer
            && forall n :: n in t.table && n !in s.table ==> t.table[n].layer == s.layer
    decreases |es|
  {
    if es != [] {
      StepReports(s, es[0], channelPorts);
      StepGrows(s, es[0], channelPorts);
      match Step(s, es[0], channelPorts)
      case Aborted(t) =>
      case Running(t) =>
        assert NoBlockEvents(es[1..]) by {
          forall i | 0 <= i < |es[1..]| ensures !es[1..][i].EnterBlock? && !es[1..][i].ExitBlock? {
            assert es[1..][i] == es[i + 1];
          }
        }
        DeclarationsCarryLayer(t, es[1..], channelPorts);
        RunBookkeeping(t, es[1..], channelPorts);
    }
  }

  /** A component declared inside a flow or control block belongs to that
      block's layer, and after the block is left the layer is undefined again. */
  lemma BlockScoping(s: State, b: BlockKind, body: seq<Event>, channelPorts: int -> bool)
    requires NoBlockEvents(body) && NoErrorNode(body)
    ensures var o := Run(s, [EnterBlock(b)] + body + [ExitBlock(b)], channelPorts);
            && o.Running?
            && o.state.layer == Undefined
            && forall n :: n in o.state.table && n !in s.table ==> o.state.table[n].layer == LayerOf(b)
  {
    var inside := s.(layer := LayerOf(b));
    assert Run(s, [EnterBlock(b)], channelPorts) == Running(inside);
    RunAppend(s, [EnterBlock(b)], body, channelPorts);
    AbortsIffErrorNode(inside, body, channelPorts);
    DeclarationsCarryLayer(inside, body, channelPorts);
    var after := Run(inside, body, channelPorts).state;
    RunAppend(s, [EnterBlock(b)] + body, [ExitBlock(b)], channelPorts);
    assert Run(after, [ExitBlock(b)], channelPorts) == Running(after.(layer := Undefined));
  }

  /** The device-model invariant a valid state keeps: every vertex belongs to
      a declared component that has that port, and every edge joins two
      endpoints that resolve. */
  ghost predicate WellFormed(s: State, channelPorts: int -> bool)
  {
    s.valid ==>
      && (forall w :: w in s.graph.vertices ==> Resolves(s.table, w, channelPorts))
      && (forall i :: 0 <= i < |s.graph.edges| ==>
            Resolves(s.table, s.graph.edges[i].source, channelPorts)
            && Resolves(s.table, s.graph.edges[i].target, channelPorts))
  }

  lemma ResolvesExtends(t0: Table, t1: Table, w: Vertex, channelPorts: int -> bool)
    requires Extends(t0, t1) && Resolves(t0, w, channelPorts)
    ensures Resolves(t1, w, channelPorts)
  {
  }

  lemma DeclareAllPreservesWellFormed(s: State, names: seq<string>, v: Variant, ports: nat, channelPorts: int -> bool)
    requires WellFormed(s, channelPorts)
    requires !v.Channel? && ports == VertexCount(v)
    ensures WellFormed(DeclareAll(s, names, v, ports), channelPorts)
  {
    var r := DeclareAll(s, names, v, ports);
    DeclareAllReports(s, names, v, ports);
    DeclareAllDuplicates(s, names, v, ports);
    if r.valid {
      forall w | w in r.graph.vertices ensures Resolves(r.table, w, channelPorts) {
        if w in s.graph.vertices {
          ResolvesExtends(s.table, r.table, w, channelPorts);
        } else {
          var i :| 0 <= i < |names| && names[i] == w.id;
          assert w.id !in s.table;
          assert r.table[w.id] == Component(w.id, s.layer, v);
        }
      }
      forall i | 0 <= i < |r.graph.edges|
        ensures Resolves(r.table, r.graph.edges[i].source, channelPorts)
        ensures Resolves(r.table, r.graph.edges[i].target, channelPorts)
      {
        ResolvesExtends(s.table, r.table, s.graph.edges[i].source, channelPorts);
        ResolvesExtends(s.table, r.table, s.graph.edges[i].target, channelPorts);
      }
    }
  }

  lemma ChannelPreservesWellFormed(s: State, name: string, source: Vertex, target: Vertex, channelPorts: int -> bool)
    requires WellFormed(s, channelPorts)
    ensures WellFormed(ExitChannelStat(s, name, source, target, channelPorts), channelPorts)
  {
  }

  lemma MixerPreservesWellFormed(s: State, name: string, ps: seq<Params.Param<Params.MixerKey>>, channelPorts: int -> bool)
    requires WellFormed(s, channelPorts)
    ensures WellFormed(ExitMixerStat(s, name, ps), channelPorts)
  {
  }

  lemma StepPreservesWellFormed(s: State, e: Event, channelPorts: int -> bool)
    requires WellFormed(s, channelPorts)
    ensures WellFormed(Step(s, e, channelPorts).state, channelPorts)
  {
    var t := Step(s, e, channelPorts).state;
    match e
    case PortStat(names, radius) =>
      assert t == DeclareAll(s, names, Port(radius), 4);
      DeclareAllPreservesWellFormed(s, names, Port(radius), 4, channelPorts);
    case NodeStat(names) =>
      assert t == DeclareAll(s, names, Node, 4);
      DeclareAllPreservesWellFormed(s, names, Node, 4, channelPorts);
    case CellTrapStat(tag, names, ps) =>
      var v := CellTrapVariant(tag, ps);
      if tag == SquareTag {
        assert t == DeclareAll(s, names, v, 4);
        DeclareAllPreservesWellFormed(s, names, v, 4, channelPorts);
      } else {
        assert t == DeclareAll(s, names, v, 2);
        DeclareAllPreservesWellFormed(s, names, v, 2, channelPorts);
      }
    case MixerStat(name, ps) =>
      assert t == ExitMixerStat(s, name, ps);
      MixerPreservesWellFormed(s, name, ps, channelPorts);
    case ChannelStat(name, source, target) =>
      assert t == ExitChannelStat(s, name, source, target, channelPorts);
      ChannelPreservesWellFormed(s, name, source, target, channelPorts);
    case Header(name) =>
      assert t.graph == s.graph && t.table == s.table && t.valid == s.valid;
    case EnterBlock(_) =>
      assert t.graph == s.graph && t.table == s.table && t.valid == s.valid;
    case ExitBlock(_) =>
      assert t.graph == s.graph && t.table == s.table && t.valid == s.valid;
    case ErrorNode =>
  }

  lemma {:induction false} RunPreservesWellFormed(s: State, es: seq<Event>, channelPorts: int -> bool)
    requires WellFormed(s, channelPorts)
    ensures WellFormed(Run(s, es, channelPorts).state, channelPorts)
    decreases |es|
  {
    if es != [] {
      StepPreservesWellFormed(s, es[0], channelPorts);
      match Step(s, es[0], channelPorts)
      case Aborted(t) =>
      case Running(t) => RunPreservesWellFormed(t, es[1..], channelPorts);
    }
  }

  /** A device that ends valid, analyzed from an empty table and graph, has no
      dangling reference: every vertex and every channel endpoint names a
      declared component that has that port. */
  lemma ValidDeviceHasNoDanglingReferences(es: seq<Event>, channelPorts: int -> bool)
    ensures var t := Run(Init(map[], Graph({}, [])), es, channelPorts).state;
            t.valid ==>
              && (forall w :: w in t.graph.vertices ==> Resolves(t.table, w, channelPorts))
              && (forall i :: 0 <= i < |t.graph.edges| ==>
                    Resolves(t.table, t.graph.edges[i].source, channelPorts)
                    && Resolves(t.table, t.graph.edges[i].target, channelPorts))
  {
    RunPreservesWellFormed(Init(map[], Graph({}, [])), es, channelPorts);
  }
}

=== FILE: scenarios.dfy ===
/** Worked examples of whole analyses, from an empty table and graph, stated
    for any names and radii. */
module Scenarios {
  import opened Components
  import opened DeviceGraph
  import opened Processor
  import opened Statements

  function Empty(): State
  {
    Init(map[], Graph({}, []))
  }

  lemma RunCons(s: State, e: Event, es: seq<Event>, t: State, channelPorts: int -> bool)
    requires Step(s, e, channelPorts) == Running(t)
    ensures Run(s, [e] + es, channelPorts) == Run(t, es, channelPorts)
  {
  }

  /** `port a, b` inside a flow block declares both ports cleanly. */
  lemma DeclareTwoPorts(a: string, b: string, radius: int)
    requires a != b
    ensures var s2 := ExitPortStat(Empty().(layer := Flow), [a, b], radius);
            && s2.valid && s2.diags == [] && s2.layer == Flow && s2.graph.edges == []
            && s2.table == map[a := Component(a, Flow, Port(radius)), b := Component(b, Flow, Port(radius))]
  {
    var s1 := Empty().(layer := Flow);
    var d1 := Declare(s1, a, Port(radius), 4);
    var d2 := Declare(d1, b, Port(radius), 4);
    assert [a, b][1..] == [b] && [b][1..] == [];
    assert ExitPortStat(s1, [a, b], radius) == DeclareAll(d1, [b], Port(radius), 4) == d2;
  }

  /** A channel from port 1 of `a` to port 1 of `b` after those ports. */
  lemma ConnectTwoPorts(a: string, b: string, c: string, radius: int, channelPorts: int -> bool)
    requires a != b && c != a && c != b
    ensures var s3 := ExitChannelStat(ExitPortStat(Empty().(layer := Flow), [a, b], radius),
                                      c, Vertex(a, 1), Vertex(b, 1), channelPorts);
            && s3.valid
            && s3.graph.edges == [Edge(Vertex(a, 1), Vertex(b, 1))]
            && s3.table.Keys == {a, b, c}
            && s3.table[a] == Component(a, Flow, Port(radius))
            && s3.table[c] == Component(c, Flow, Channel)
  {
    DeclareTwoPorts(a, b, radius);
  }

  /** Two ports declared in a flow block and a channel between their first
      ports: the device stays valid, holds the three names, and has the one
      edge. */
  lemma ConnectedPortsInFlowBlock(a: string, b: string, c: string, radius: int, channelPorts: int -> bool)
    requires a != b && c != a && c != b
    ensures var o := Run(Empty(),
                         [EnterBlock(FlowBlock), PortStat([a, b], radius),
                          ChannelStat(c, Vertex(a, 1), Vertex(b, 1)), ExitBlock(FlowBlock)],
                         channelPorts);
            && o.Running?
            && o.state.valid
            && o.state.graph.edges == [Edge(Vertex(a, 1), Vertex(b, 1))]
            && o.state.table.Keys == {a, b, c}
            && o.state.table[a] == Component(a, Flow, Port(radius))
            && o.state.layer == Undefined
  {
    var ch := ChannelStat(c, Vertex(a, 1), Vertex(b, 1));
    var s1 := Empty().(layer := Flow);
    var s2 := ExitPortStat(s1, [a, b], radius);
    var s3 := ExitChannelStat(s2, c, Vertex(a, 1), Vertex(b, 1), channelPorts);
    ConnectTwoPorts(a, b, c, radius, channelPorts);
    var t3 := [ExitBlock(FlowBlock)];
    var t2 := [ch] + t3;
    var t1 := [PortStat([a, b], radius)] + t2;
    assert Run(s3, t3, channelPorts) == Running(s3.(layer := Undefined));
    RunCons(s2, ch, t3, s3, channelPorts);
    RunCons(s1, PortStat([a, b], radius), t2, s2, channelPorts);
    RunCons(Empty(), EnterBlock(FlowBlock), t1, s1, channelPorts);
    assert [EnterBlock(FlowBlock)] + t1
             == [EnterBlock(FlowBlock), PortStat([a, b], radius), ch, ExitBlock(FlowBlock)];
  }

  /** Declaring port `a` twice: one duplicate report, the first entry kept. */
  lemma PortDeclaredTwice(a: string, r1: int, r2: int, channelPorts: int -> bool)
    ensures var o := Run(Empty(), [PortStat([a], r1), PortStat([a], r2)], channelPorts);
            && o.Running?
            && !o.state.valid
            && o.state.diags == [Diag(DuplicatedIdentifier, a)]
            && o.state.table == map[a := Component(a, Undefined, Port(r1))]
  {
    var s1 := ExitPortStat(Empty(), [a], r1);
    assert [a][1..] == [];
    var d := Declare(Empty(), a, Port(r1), 4);
    assert s1 == DeclareAll(d, [], Port(r1), 4) == d;
    assert s1.table == map[a := Component(a, Undefined, Port(r1))];
    assert s1.diags == [];
    var es := [PortStat([a], r1), PortStat([a], r2)];
    assert es == [PortStat([a], r1)] + [PortStat([a], r2)];
    RunCons(Empty(), PortStat([a], r1), [PortStat([a], r2)], s1, channelPorts);
    RedeclaredPortKeepsFirst(s1, a, r2);
  }
}

=== FILE: statements.dfy ===
/** Properties of single declaration statements. */
module Statements {
  import opened Components
  import opened DeviceGraph
  import opened Params
  import opened Processor

  /** Redeclaring an existing name as a port keeps the first entry, reports
      exactly one duplicate, clears validity, and still registers the four
      port vertices. */
  lemma RedeclaredPortKeepsFirst(s: State, n: string, radius: int)
    requires n in s.table
    ensures var r := ExitPortStat(s, [n], radius);
            && r.table == s.table
            && r.diags == s.diags + [Diag(DuplicatedIdentifier, n)]
            && !r.valid
            && forall p :: 1 <= p <= 4 ==> Vertex(n, p) in r.graph.vertices
  {
    var d := Declare(s, n, Port(radius), 4);
    assert [n][1..] == [];
    assert ExitPortStat(s, [n], radius) == DeclareAll(d, [], Port(radius), 4);
  }

  /** A duplicate in the middle of a statement does not stop it: every listed
      name ends up in the table with all four vertices, and the validity flag
      falls exactly when some name was not fresh. */
  lemma EveryNameOfStatementIsDeclared(s: State, names: seq<string>)
    ensures var r := ExitNodeStat(s, names);
            && (forall i :: 0 <= i < |names| ==>
                  names[i] in r.table && forall p :: 1 <= p <= 4 ==> Vertex(names[i], p) in r.graph.vertices)
            && (r.valid <==> s.valid && AllFresh(s.table.Keys, names))
  {
    DeclareAllDuplicates(s, names, Node, 4);
    var r := ExitNodeStat(s, names);
    forall i | 0 <= i < |names| ensures names[i] in r.table {
      assert names[i] in set n | n in names;
    }
  }

  /** A square cell trap declared without parameters has every dimension 0
      and four port vertices. */
  lemma SquareCellTrapDefaults(s: State, names: seq<string>)
    ensures var r := ExitCellTrapStat(s, SquareTag, names, []);
            && (forall n :: n in r.table && n !in s.table ==> r.table[n].variant == SquareCellTrap(0, 0, 0))
            && (forall i, p :: 0 <= i < |names| && 1 <= p <= 4 ==> Vertex(names[i], p) in r.graph.vertices)
  {
    AbsentIsZero([], ChamberWidth);
    AbsentIsZero([], ChamberLength);
    AbsentIsZero([], TrapChannelWidth);
  }

  /** Any tag other than the exact square tag gives long cell traps with two
      port vertices each. */
  lemma OtherTagGivesLongCellTrap(s: State, tag: string, names: seq<string>, ps: seq<Param<CellTrapKey>>)
    requires tag != SquareTag
    ensures var r := ExitCellTrapStat(s, tag, names, ps);
            && (forall n :: n in r.table && n !in s.table ==> r.table[n].variant.LongCellTrap?)
            && (forall w :: w in r.graph.vertices && w !in s.graph.vertices ==> w.port == 1 || w.port == 2)
  {
  }

  /** A cell-trap parameter given several times takes its last value. */
  lemma CellTrapLastValueWins(s: State, tag: string, names: seq<string>, ps: seq<Param<CellTrapKey>>, i: int)
    requires IsLast(ps, ChamberWidth, i)
    ensures var r := ExitCellTrapStat(s, tag, names, ps);
            forall n :: n in r.table && n !in s.table ==> r.table[n].variant.chamberWidth == ps[i].value
  {
    LastOccurrenceWins(ps, ChamberWidth, i);
  }

  /** A mixer given only its bend length has every other parameter 0, and
      exactly the vertices for ports 1 and 2 are added. */
  lemma MixerWithOnlyBendLength(s: State, name: string, length: int)
    requires name !in s.table
    ensures var r := ExitMixerStat(s, name, [Param(BendLength, length)]);
            && r.table[name].variant == Mixer(0, 0, length, 0)
            && r.graph.vertices == s.graph.vertices + {Vertex(name, 1), Vertex(name, 2)}
  {
    var ps := [Param(BendLength, length)];
    AbsentIsZero(ps, NumBends);
    AbsentIsZero(ps, BendSpacing);
    AbsentIsZero(ps, MixerChannelWidth);
    LastOccurrenceWins(ps, BendLength, 0);
  }

  /** A channel either of whose endpoints names an existing component without
      the given port is still recorded as an edge, but not without an
      undefined-port report and a cleared validity flag. */
  lemma EdgeOnMissingPortIsReported(s: State, name: string, source: Vertex, target: Vertex, channelPorts: int -> bool)
    requires || (source.id in s.table && !HasPort(s.table[source.id], source.port, channelPorts))
             || (target.id in s.table && !HasPort(s.table[target.id], target.port, channelPorts))
    ensures var r := ExitChannelStat(s, name, source, target, channelPorts);
            && r.graph.edges[|r.graph.edges| - 1] == Edge(source, target)
            && (source.id in s.table && !HasPort(s.table[source.id], source.port, channelPorts) ==>
                  Diag(UndefinedPort, source.id) in r.diags[|s.diags|..])
            && (target.id in s.table && !HasPort(s.table[target.id], target.port, channelPorts) ==>
                  Diag(UndefinedPort, target.id) in r.diags[|s.diags|..])
            && !r.valid
  {
  }

  /** Vertices are registered even for a duplicate name, so redeclaring a
      mixer as a port leaves vertex 3 of a component that has only two ports:
      the vertex invariant of the device model holds only for valid devices. */
  lemma DuplicateOfOtherKindAddsForeignVertex(s: State, n: string, ps: seq<Param<MixerKey>>, radius: int,
                                              channelPorts: int -> bool)
    requires n !in s.table
    ensures var r := ExitPortStat(ExitMixerStat(s, n, ps), [n], radius);
            && Vertex(n, 3) in r.graph.vertices
            && n in r.table && !HasPort(r.table[n], 3, channelPorts)
            && !r.valid
  {
    var m := ExitMixerStat(s, n, ps);
    RedeclaredPortKeepsFirst(m, n, radius);
  }
}

=== FILE: symbol_table.dfy ===
/** The symbol table: the single namespace of a device, mapping each
    identifier to the component first declared under it. */
module SymbolTable {
  import opened Components

  type Table = map<string, Component>

  /** The outcome of `Put`: whether the entry was inserted, and the table
      afterwards. */
  datatype PutResult = PutResult(inserted: bool, table: Table)

  /** Inserts `c` under `id` unless `id` is already present, in which case the
      table is left exactly as it was and the result reports failure. */
  function Put(t: Table, id: string, c: Component): (r: PutResult)
    ensures r.inserted <==> id !in t
    ensures r.inserted ==> r.table == t[id := c]
    ensures !r.inserted ==> r.table == t
    ensures id in r.table && r.table[id] == (if id in t then t[id] else c)
    ensures r.table.Keys == t.Keys + {id}
    ensures forall k :: k in t ==> k in r.table && r.table[k] == t[k]
  {
    if id in t then PutResult(false, t) else PutResult(true, t[id := c])
  }

  /** `t1` keeps every entry of `t0` unchanged: entries are never removed or
      overwritten. */
  ghost predicate Extends(t0: Table, t1: Table)
  {
    forall k :: k in t0 ==> k in t1 && t1[k] == t0[k]
  }

  /** A second `Put` under the same identifier fails and changes nothing: the
      first writer wins. */
  lemma PutTwiceKeepsFirst(t: Table, id: string, c1: Component, c2: Component)
    ensures var first := Put(t, id, c1);
            var second := Put(first.table, id, c2);
            !second.inserted && second.table == first.table
            && second.table[id] == (if id in t then t[id] else c1)
  {
  }

  lemma ExtendsTransitive(t0: Table, t1: Table, t2: Table)
    requires Extends(t0, t1) && Extends(t1, t2)
    ensures Extends(t0, t2)
  {
  }
}
